=== FILE: README.md ===
# Segmented commit log of the seneca broker, in Dafny

This project models the storage core of the seneca message broker
(`src/storage.rs`). That core is an append-only commit log split into
segment files. Every message is stored as a frame: a 4-byte big-endian
length followed by the payload. A `Segment` appends frames to its file and
keeps a running byte size. A `Log` keeps one active segment. When the
running size plus the next payload length exceeds the 10 MiB bound, the log
rolls over to a new segment whose index comes from a counter. Reading scans
the active segment's file from byte 0 and returns every frame up to the
first incomplete one.

The model is functional:

- The log directory is a `Disk`, a map from segment index to file bytes.
  A missing key is a file that does not exist yet.
- Each public operation is a function (or, for the read loop, a method)
  from a `(Disk, Log)` state to the next state and an outcome.
- Every public operation of the source holds the log's mutex for its whole
  duration, so one call is one atomic step.
- I/O failures are chosen by the caller through a `Fault` parameter:
  - `OpenFails`: opening a segment file fails;
  - `HeaderWriteFails`: writing the length header fails;
  - `PayloadWriteFails`: the header was written but the payload was not.
    An empty payload writes nothing, so this fault cannot hit it.

Files:

- `bytes.dfy` (module `Bytes`): bytes, the `as u32` cast, and big-endian
  `u32` conversion.
- `frame.dfy` (module `Frame`): the frame encoder, the reference decoder
  `Decode`, the round-trip property and the torn-tail property.
- `filesystem.dfy` (module `FileSystem`): the `Disk`, `Result` and `Fault`.
- `segment.dfy` (module `Segments`): `Segment::new`, `Segment::append` and
  the `Segment::read_all` scan loop.
- `log.dfy` (module `Storage`): `MAX_SEGMENT_SIZE`, `Log::open`,
  `Log::append` with rollover, `Log::read_all`, runs of appends, and
  concrete scenarios.

## Behaviour of the code worth knowing

- **The rollover check does not count the header.** The code
  (`src/storage.rs:45`) rolls over when `size + len` exceeds the bound, not
  `size + 4 + len`. So a message that exactly fills the bound does not roll
  over, and the segment ends 4 bytes past the bound. See
  `Storage.ExactFitOverrunsByHeader`.
- **The first offset after a rollover need not be 0.** The next segment is
  opened with `Segment::new`, which takes its size from the file's existing
  length (`src/storage.rs:71`). So the offset is 0 only when that file is
  absent or empty. See `Storage.RolloverContinuesNextFile`.
- **A torn frame need not be the last one in a file.** After a failed
  payload write, nothing resets the segment. The next append writes after
  the stray header, and it reports an offset 4 bytes short of where its
  frame really starts. Reading the file back can then return a message that
  was never appended. See `Segments.PayloadFaultLeavesBareHeader` and
  `Storage.PayloadFaultThenAppendMisreads`. A segment reopened with a
  torn tail is continued after it in the same way, and the torn header
  swallows the next frame. See `Storage.TornTailSwallowsNextFrame`.
- **Reopening restarts at segment 0.** `Log::open` always makes segment 0
  active with the counter at 0, whatever other segment files exist. Later
  rollovers then continue files 1, 2, … at their ends. See `Storage.Open`
  and `Storage.ReopenThenAppend`.

## Model

| member | source | states |
|---|---|---|
| Bytes.ToU32 | src/storage.rs:80 | the `as u32` cast gives a value below 2^32, and leaves any length below 2^32 unchanged |
| Bytes.FromBe32OfBe32 | src/storage.rs:80-81 | a length header written with `to_be_bytes` reads back as the same length |
| Bytes.Be32OfFromBe32 | src/storage.rs:100 | any 4 header bytes are exactly the big-endian encoding of the length they declare |
| Frame.EncodeFrame | src/storage.rs:80-82 | a frame is 4 header bytes followed by the payload unchanged, and its header declares the payload length whenever that length fits in 32 bits |
| Frame.Decode | src/storage.rs:89-111 | the reference decoding of a segment file; its own contract: every message it returns has a length that fits a `u32` header |
| Frame.FramesLength | src/storage.rs:85 | the frames of m1..mn take exactly the sum of 4 + len bytes, the amount the running size advances by |
| Frame.DecodeFrameThen | src/storage.rs:96-108 | a frame followed by any bytes decodes to that frame's message, then the decoding of what follows |
| Frame.DecodePrefix | src/storage.rs:89-111 | the decoded messages, re-encoded as frames, are exactly a prefix of the file: the scan reports only bytes really in the file, in file order |
| Frame.DecodeFrom | src/storage.rs:94-108 | one scan step at position `pos`: a short header or a short payload ends the scan with nothing more; otherwise the frame there is returned and the scan resumes right after it |
| Frame.DecodeFramesThen | src/storage.rs:89-111 | decoding whole frames followed by any tail gives their messages in order, followed by the decoding of the tail |
| Frame.DecodeFrames | src/storage.rs:89-111 | round trip: decoding the frames of m1..mn gives exactly m1..mn |
| Frame.DecodeEmptyIff | src/storage.rs:96-105 | the scan returns nothing if and only if the file starts with a short header or with a header declaring more bytes than remain |
| Frame.DecodeIgnoresTornTail | src/storage.rs:96-105 | whole frames followed by a torn tail (fewer than 4 bytes, or a header declaring more bytes than remain) decode to exactly those frames' messages, without failing |
| Frame.DecodeAfterAppend | src/storage.rs:81-82 | appending one frame to a file of whole frames adds exactly that message at the end of the decoding, and the file stays whole frames |
| Frame.DecodeIgnoresBareHeader | src/storage.rs:81-82 | a header written without its non-empty payload leaves the decoding of a file of whole frames unchanged |
| Segments.New | src/storage.rs:62-74 | opening a segment fails only on an open fault; otherwise it creates the file if it is missing, changes no file's contents, and sets the size to the file's existing length |
| Segments.Append | src/storage.rs:76-87 | a successful append writes the frame at the end of the file, returns the size from before the write, and grows the size by 4 + len; when the size tracked the file, the offset then points at the new frame and the size still equals the file length; a failed header write changes nothing; a failed payload write of a non-empty message leaves the header and the old size, while an empty message cannot fail there; no other file changes or comes into existence, and no bytes are lost |
| Segments.EmptyPayloadCannotFail | src/storage.rs:82-86 | an empty message has nothing to write after its header, so a payload fault leaves the append identical to a fault-free one, returning the old size |
| Segments.AppendThenDecode | src/storage.rs:76-87 | for a file of whole frames, whether or not the size tracks it, a successful append adds exactly its message to what the segment reads back, and the file stays whole frames |
| Segments.PayloadFaultLeavesBareHeader | src/storage.rs:81-85 | for a tracked file of whole frames, after a failed payload write of a non-empty message, what the segment reads back is unchanged, but the file is 4 bytes longer than the size, so the size no longer tracks the file |
| Segments.ReadAll | src/storage.rs:89-112 | the scan loop fails exactly when opening the file fails, by a fault or because the file does not exist, and otherwise returns exactly the reference decoding of the file |
| Storage.Open | src/storage.rs:28-39 | opening the log fails only on an open fault, and then leaves the directory as it was; otherwise segment 0 is active, its size is the existing file length, the counter is 0, the state invariant holds, segment 0's file is the only one that may come into existence, and no file's contents change |
| Storage.Append | src/storage.rs:42-52 | the counter advances by exactly one exactly when size + len > MAX_SEGMENT_SIZE; a rollover makes index counter+1 active, and without one the active index stays; an open failure during rollover consumes the index and changes nothing else; files only grow, and only the active one; the only file that can come into existence is the one a rollover opens, and under the invariant it does exactly when that open succeeds; the call succeeds exactly when no write or needed open fails (a payload fault on an empty message is no failure); on success under the invariant the returned offset is the old length of the active file and the frame is appended there; the state invariant is kept unless the payload write of a non-empty message fails; without rollover the segment ends at most 4 bytes past the bound |
| Storage.AppendAtRunningSize | src/storage.rs:77-86 | without rollover, a successful append returns the running size and advances it by 4 + len, in every state, including a torn file or a size left behind by a payload fault |
| Storage.ReadAll | src/storage.rs:55-58 | reading changes neither the directory nor the log, fails exactly when the active segment's file cannot be opened (a fault, or no such file), and returns the decoding of that file and of no other |
| Storage.AppendAll | src/storage.rs:42-52 | a run of fault-free appends returns one offset per message |
| Storage.AppendInPlace | src/storage.rs:45-51 | under the invariant, for an active file of whole frames, a fault-free append that fits returns the old size, grows the active segment by 4 + len without changing the counter, and adds exactly its message to what the segment reads back |
| Storage.AppendAllStaysActive | src/storage.rs:45-51 | under the invariant, a run of appends that fits the active segment, whatever its file holds, keeps the same active segment and counter, grows the size by the run's framed length, keeps the invariant, and changes no other file |
| Storage.AppendAllRoundTrip | src/storage.rs:127-137 | when the active file holds whole frames, whether or not the size tracks it, a run of appends that fits the active segment adds exactly its messages, in order, to what `read_all` returns |
| Storage.AppendAllOffsets | src/storage.rs:77-86 | the k-th append of a run that fits the active segment returns the starting running size plus 4 + len summed over the k earlier appends, in every state, including a torn file or a size left behind by a payload fault |
| Storage.ExactFitOverrunsByHeader | src/storage.rs:45 | under the invariant, a message that exactly fills the bound does not roll over, and leaves the segment and its file at MAX_SEGMENT_SIZE + 4 bytes |
| Storage.RolloverContinuesNextFile | src/storage.rs:46-51 | on rollover the new active index is counter+1 and differs from the old one; the offset is the existing length of that file (0 when the file is absent); when that file holds whole frames, it reads back its old messages plus the new one; the old active file is unchanged |
| Storage.OversizedMessageWrittenWhole | src/storage.rs:45-51 | under the invariant, a message longer than the bound but shorter than 2^32 bytes rolls over even from an empty segment and is written whole into the next segment, at offset 0 when that file did not exist, and reads back as the only message there |
| Storage.ReopenThenAppend | src/storage.rs:28-37 | when segment 0 holds whole frames and the message fits beside them, reopening a directory continues segment 0 at its end: the next append returns the old file length as its offset, keeps the old bytes, and adds its message after the old ones |
| Storage.TornTailSwallowsNextFrame | src/storage.rs:28-37 | a segment reopened with a torn header is continued after it: the next append reports offset 4, and reading back yields one message made of that append's frame bytes instead of its message |
| Storage.PayloadFaultThenAppendMisreads | src/storage.rs:81-85 | after a failed payload write, the next append reports offset 0 for a frame that starts at byte 4, and reading back returns a message that was never appended |
| Storage.FreshLogScenario | src/storage.rs:76-87 | on a fresh log, appending "a" returns offset 0 and appending "bb" returns offset 5; reading back gives ["a", "bb"] |
| Storage.AppendTwoThenReadBack | src/storage.rs:127-137 | "message-1" and "message-2" appended to a fresh log read back as exactly those two messages, in order |

## Left out

- `src/main.rs` is not part of this model. It holds the tracing setup, the
  banner, the hard-coded configuration and the TCP accept loop. These are
  I/O and async code with no storage logic.
- Locking (`Arc<Mutex<_>>`) and the atomic counter (`AtomicUsize`) are left
  out. Each call holds the lock for its whole duration, so each call is one
  atomic step, and the counter is a plain `nat`. So the property that
  concurrent appends lose or interleave no message becomes the sequential
  one.
- The file name `segment-{:04}.log` is not modelled. Files are keyed by
  their index.
- OS file handles, `seek`, `flush` and `metadata()` are left out. A file is
  its bytes. The `seek` in the scan loop always succeeds.
- Fault granularity is coarse:
  - a header write either fails whole or succeeds whole;
  - a failed payload write writes none of the payload (an empty payload
    cannot fail);
  - a failure of `create_dir_all`, or of `metadata()` after the file was
    created, counts as `OpenFails` and leaves no new file;
  - a read error during the scan is not modelled, though the source would
    treat it like end of data;
  - flush never fails.
- `size` and the returned offset are unbounded integers. The `usize` and
  `u64` widths are not modelled, because sizes near 2^64 bytes cannot occur.
  The `as u32` cast of the header length is modelled.
- The `vec![0u8; len]` allocation for a header's declared length is left
  out. A corrupt header can make it ask for up to 4 GiB; the model only
  compares the length with the bytes that remain.
- Frame.Decode: its own contract states only the header-width bound. Its
  decoding behaviour is stated by `Frame.DecodePrefix`, `Frame.DecodeFrom`,
  `Frame.DecodeEmptyIff` and `Segments.ReadAll`.
- Storage.AppendAll: its own contract states only that there is one offset
  per message. The offsets and contents are stated by
  `Storage.AppendAllOffsets`, `Storage.AppendAllStaysActive` and
  `Storage.AppendAllRoundTrip`.
- Storage.AppendAllRoundTrip: covers runs that stay in the active segment.
  An append that rolls over is covered one step at a time by
  `Storage.RolloverContinuesNextFile`.
- Storage.AppendAllOffsets: covers runs that stay in the active segment, for
  the same reason.
- The uuid/tempdir test helpers are left out.

=== FILE: bytes.dfy ===
/**
 Bytes and the 4-byte big-endian length header that prefixes every frame of
 a segment file.
 */
module Bytes {

  /** One octet as stored in a segment file. */
  type byte = b: int | 0 <= b < 256

  /** Number of values of a Rust `u32`. */
  const U32_LIMIT: nat := 0x1_0000_0000

  /** The `as u32` cast of a `usize` length: keeps the low 32 bits. */
  function ToU32(n: nat): (r: nat)
    ensures r < U32_LIMIT
    ensures n < U32_LIMIT ==> r == n
  {
    n % U32_LIMIT
  }

  /** `u32::to_be_bytes`: most significant byte first. */
  function Be32(n: nat): (r: seq<byte>)
    requires n < U32_LIMIT
    ensures |r| == 4
  {
    [n / 0x100 / 0x100 / 0x100, n / 0x100 / 0x100 % 0x100, n / 0x100 % 0x100, n % 0x100]
  }

  /** `u32::from_be_bytes`: reads four bytes, most significant first. */
  function FromBe32(b: seq<byte>): (r: nat)
    requires |b| == 4
    ensures r < U32_LIMIT
  {
    ((b[0] as int * 0x100 + b[1]) * 0x100 + b[2]) * 0x100 + b[3]
  }

  /** Splitting `k * 256 + d` at a byte boundary gives back `k` and `d`. */
  lemma SplitLowByte(k: nat, d: byte)
    ensures (k * 0x100 + d) / 0x100 == k
    ensures (k * 0x100 + d) % 0x100 == d
  {
  }

  /** Reading back a written header yields the length that was written. */
  lemma FromBe32OfBe32(n: nat)
    requires n < U32_LIMIT
    ensures FromBe32(Be32(n)) == n
  {
    var q1 := n / 0x100;
    var q2 := q1 / 0x100;
    assert n == q1 * 0x100 + n % 0x100;
    assert q1 == q2 * 0x100 + q1 % 0x100;
    assert q2 == (q2 / 0x100) * 0x100 + q2 % 0x100;
  }

  /** Every 4-byte header is the encoding of the length it declares, so
      decoding never loses information about the header bytes. */
  lemma Be32OfFromBe32(b: seq<byte>)
    requires |b| == 4
    ensures Be32(FromBe32(b)) == b
  {
    var hi := b[0] as int * 0x100 + b[1];
    var mid := hi * 0x100 + b[2];
    SplitLowByte(mid, b[3]);
    SplitLowByte(hi, b[2]);
    SplitLowByte(b[0], b[1]);
    SplitLowByte(0, b[0]);
  }
}

=== FILE: filesystem.dfy ===
/**
 The abstract filesystem the log lives in: the directory is a map from
 segment index to that segment file's bytes, and every I/O call either
 succeeds or fails with an I/O error. Which step of a call fails, if any, is
 chosen by the caller of the model through a `Fault`.
 */
module FileSystem {
  import opened Bytes

  /** The log directory: segment index to file contents. A missing key is a
      segment file that does not exist yet. */
  type Disk = map<nat, seq<byte>>

  /** The bytes of segment `i`; a file that does not exist reads as empty. */
  function Contents(disk: Disk, i: nat): seq<byte>
  {
    if i in disk then disk[i] else []
  }

  /** `std::io::Result`: a value, or an I/O error whose kind the model does
      not distinguish. */
  datatype Result<T> = Ok(value: T) | IoErr

  /** The I/O step that fails during one call, if any: opening a segment
      file (for a write or a read), writing the length header, or writing
      the payload after the header went through. */
  datatype Fault = NoFault | OpenFails | HeaderWriteFails | PayloadWriteFails

  /** No file lost bytes from `before` to `after`: every file of `before`
      is a prefix of the same file in `after`. */
  ghost predicate AppendOnly(before: Disk, after: Disk) {
    forall i :: Contents(before, i) <= Contents(after, i)
  }
}

=== FILE: frame.dfy ===
/**
 The frame codec of a segment file: a frame is a 4-byte big-endian length
 followed by that many payload bytes, and a segment file is the plain
 concatenation of its frames. Decoding scans from byte 0 and stops, without
 error, at the first header or payload that is cut short.
 */
module Frame {
  import opened Bytes
  import opened Seqs

  type Message = seq<byte>

  /** Every message is short enough for its length to survive the `as u32`
      cast of the header. */
  predicate AllFit(ms: seq<Message>) {
    forall i :: 0 <= i < |ms| ==> |ms[i]| < U32_LIMIT
  }

  /** The bytes one append writes: the header carries the length truncated
      to 32 bits, the payload is written whole. */
  function EncodeFrame(m: Message): (r: seq<byte>)
    ensures |r| == 4 + |m|
    ensures r[4..] == m
    ensures |m| < U32_LIMIT ==> FromBe32(r[..4]) == |m|
  {
    FromBe32OfBe32(ToU32(|m|));
    Be32(ToU32(|m|)) + m
  }

  /** The file a sequence of successful appends produces. */
  function Frames(ms: seq<Message>): (r: seq<byte>)
  {
    if ms == [] then [] else EncodeFrame(ms[0]) + Frames(ms[1..])
  }

  /** Total number of bytes the frames of `ms` occupy. */
  function FramedSize(ms: seq<Message>): nat
  {
    if ms == [] then 0 else 4 + |ms[0]| + FramedSize(ms[1..])
  }

  /** The tail `t` holds no complete frame at its start: either fewer than
      four header bytes remain, or the header declares more payload than is
      left. */
  predicate Incomplete(t: seq<byte>) {
    |t| < 4 || FromBe32(t[..4]) > |t| - 4
  }

  /** The reference decoding of a segment file: every complete frame from
      byte 0 up to the first incomplete one, in file order. */
  function Decode(data: seq<byte>): (ms: seq<Message>)
    ensures AllFit(ms)
    decreases |data|
  {
    if Incomplete(data) then []
    else
      var len := FromBe32(data[..4]);
      [data[4..4 + len]] + Decode(data[4 + len..])
  }

  /** Decoding loses nothing it reports: the decoded messages, re-encoded,
      are exactly a prefix of the file. */
  lemma {:induction false} DecodePrefix(data: seq<byte>)
    ensures Frames(Decode(data)) <= data
    decreases |data|
  {
    if !Incomplete(data) {
      var len := FromBe32(data[..4]);
      var msg := data[4..4 + len];
      var rest := Decode(data[4 + len..]);
      assert Decode(data) == [msg] + rest;
      assert Frames(rest) <= data[4 + len..] by {
        DecodePrefix(data[4 + len..]);
      }
      assert Frames([msg] + rest) == EncodeFrame(msg) + Frames(rest) by {
        assert ([msg] + rest)[1..] == rest;
      }
      assert EncodeFrame(msg) == data[..4 + len] by {
        Be32OfFromBe32(data[..4]);
        assert EncodeFrame(msg) == data[..4] + msg;
      }
      assert data == data[..4 + len] + data[4 + len..];
    }
  }

  /** One step of a scan that has reached byte `pos`: either the rest is
      an incomplete frame and decodes to nothing, or the frame found there
      is decoded and the scan resumes after it. */
  lemma DecodeFrom(data: seq<byte>, pos: nat)
    requires pos <= |data|
    ensures |data| - pos < 4 ==> Decode(data[pos..]) == []
    ensures |data| - pos >= 4 ==>
      var len := FromBe32(data[pos..pos + 4]);
      && (|data| - pos - 4 < len ==> Decode(data[pos..]) == [])
      && (|data| - pos - 4 >= len ==>
            Decode(data[pos..]) == [data[pos + 4..pos + 4 + len]] + Decode(data[pos + 4 + len..]))
  {
    var tail := data[pos..];
    if |tail| >= 4 {
      assert tail[..4] == data[pos..pos + 4];
      var len := FromBe32(tail[..4]);
      if |tail| - 4 >= len {
        assert tail[4..4 + len] == data[pos + 4..pos + 4 + len];
        assert tail[4 + len..] == data[pos + 4 + len..];
      }
    }
  }

  /** The file consists of whole frames and nothing else. */
  predicate WellFormed(data: seq<byte>) {
    Frames(Decode(data)) == data
  }

  /** The frames of `ms` take exactly the bytes the running size advances
      by over the same appends. */
  lemma {:induction false} FramesLength(ms: seq<Message>)
    ensures |Frames(ms)| == FramedSize(ms)
    decreases |ms|
  {
    if ms != [] {
      FramesLength(ms[1..]);
    }
  }

  /** The framed size of the first `k` messages, split after the first. */
  lemma FramedSizeOfPrefix(ms: seq<Message>, k: nat)
    requires 1 <= k <= |ms|
    ensures FramedSize(ms[..k]) == 4 + |ms[0]| + FramedSize(ms[1..][..k - 1])
  {
    var pre := ms[..k];
    assert pre[0] == ms[0] && pre[1..] == ms[1..][..k - 1];
  }

  lemma FramesSnoc(ms: seq<Message>, m: Message)
    ensures Frames(ms + [m]) == Frames(ms) + EncodeFrame(m)
    decreases |ms|
  {
    if ms == [] {
      assert ms + [m] == [m];
    } else {
      assert (ms + [m])[1..] == ms[1..] + [m];
      FramesSnoc(ms[1..], m);
    }
  }

  /** Decoding a frame followed by anything yields that frame's message,
      then the decoding of what follows. */
  lemma DecodeFrameThen(m: Message, rest: seq<byte>)
    requires |m| < U32_LIMIT
    ensures Decode(EncodeFrame(m) + rest) == [m] + Decode(rest)
  {
    var data := EncodeFrame(m) + rest;
    assert data[..4] == EncodeFrame(m)[..4];
    assert data[4..4 + |m|] == m;
    assert data[4 + |m|..] == rest;
  }

  /** The messages after the first still fit a `u32` header. */
  lemma AllFitTail(ms: seq<Message>)
    requires AllFit(ms) && ms != []
    ensures AllFit(ms[1..])
  {
    forall i | 0 <= i < |ms[1..]| ensures |ms[1..][i]| < U32_LIMIT {
      assert ms[1..][i] == ms[i + 1];
    }
  }

  /** The inductive step of `DecodeFramesThen`: peeling the first frame. */
  lemma DecodeFramesThenStep(ms: seq<Message>, t: seq<byte>)
    requires ms != [] && |ms[0]| < U32_LIMIT
    requires Decode(Frames(ms[1..]) + t) == ms[1..] + Decode(t)
    ensures Decode(Frames(ms) + t) == ms + Decode(t)
  {
    var rest := Frames(ms[1..]) + t;
    assert Frames(ms) + t == EncodeFrame(ms[0]) + rest;
    DecodeFrameThen(ms[0], rest);
    ConsThenRest(ms, Decode(t));
  }

  /** Decoding whole frames followed by any tail yields the framed messages
      followed by the decoding of the tail. */
  lemma {:induction false} DecodeFramesThen(ms: seq<Message>, t: seq<byte>)
    requires AllFit(ms)
    ensures Decode(Frames(ms) + t) == ms + Decode(t)
    decreases |ms|
  {
    if ms == [] {
      assert Frames(ms) + t == t;
    } else {
      AllFitTail(ms);
      DecodeFramesThen(ms[1..], t);
      DecodeFramesThenStep(ms, t);
    }
  }

  /** Round trip: reading back the frames of `ms` yields exactly `ms`, in
      order. */
  lemma DecodeFrames(ms: seq<Message>)
    requires AllFit(ms)
    ensures Decode(Frames(ms)) == ms
  {
    DecodeFramesThen(ms, []);
    assert Frames(ms) + [] == Frames(ms);
  }

  /** Decoding yields nothing exactly when the file starts with an
      incomplete frame. */
  lemma DecodeEmptyIff(t: seq<byte>)
    ensures Decode(t) == [] <==> Incomplete(t)
  {
  }

  /** A torn trailing frame (a short header, or a header declaring more
      bytes than remain) is dropped silently: the complete frames before it
      are all returned, and nothing else. */
  lemma DecodeIgnoresTornTail(ms: seq<Message>, t: seq<byte>)
    requires AllFit(ms)
    requires Incomplete(t)
    ensures Decode(Frames(ms) + t) == ms
  {
    DecodeFramesThen(ms, t);
    DecodeEmptyIff(t);
  }

  /** Appending one frame to a file of whole frames adds exactly its
      message to the decoding, and the file stays whole frames. */
  lemma DecodeAfterAppend(data: seq<byte>, m: Message)
    requires WellFormed(data)
    requires |m| < U32_LIMIT
    ensures Decode(data + EncodeFrame(m)) == Decode(data) + [m]
    ensures WellFormed(data + EncodeFrame(m))
  {
    var ms := Decode(data);
    var frame := EncodeFrame(m);
    assert Decode(frame) == [m] by {
      DecodeFrameThen(m, []);
      assert frame + [] == frame;
      assert Decode([]) == [];
    }
    assert Decode(data + frame) == ms + [m] by {
      DecodeFramesThen(ms, frame);
    }
    assert Frames(ms + [m]) == data + frame by {
      FramesSnoc(ms, m);
    }
  }

  /** A header written without its payload (a failed payload write) leaves
      the decoding of a file of whole frames unchanged. */
  lemma DecodeIgnoresBareHeader(data: seq<byte>, m: Message)
    requires WellFormed(data)
    requires 0 < |m| < U32_LIMIT
    ensures Decode(data + EncodeFrame(m)[..4]) == Decode(data)
  {
    var h := EncodeFrame(m)[..4];
    assert h[..4] == h;
    DecodeIgnoresTornTail(Decode(data), h);
  }
}

=== FILE: log.dfy ===
/**
 The segmented commit log: one active segment that takes every append, a
 counter that hands out segment indexes, and the rollover rule that moves
 appends to a fresh segment once the running size plus the next payload
 length exceeds the bound. Every public
 operation of the log runs under one lock for its whole duration, so each
 call is modelled as one atomic step from a (directory, log) state to the
 next.
 */
module Storage {
  import opened Bytes
  import opened Frame
  import opened FileSystem
  import opened Segments
  import opened Seqs

  /** Size bound of a segment: 10 MiB. */
  const MAX_SEGMENT_SIZE: nat := 1024 * 1024 * 10

  /** The log handle: its active segment and the last segment index handed
      out. The directory itself is the `Disk`. */
  datatype Log = Log(active: Segment, counter: nat)

  /** State after one call of the log, and the call's outcome. */
  datatype Step<T> = Step(disk: Disk, log: Log, result: Result<T>)

  /** State after opening a log, and the log or the I/O error. */
  datatype Started = Started(disk: Disk, log: Result<Log>)

  /** The log's state invariant: the active segment's size tracks its file,
      and no index beyond the counter is active. */
  predicate Valid(disk: Disk, log: Log) {
    Tracks(disk, log.active) && log.active.index <= log.counter
  }

  /** The rollover check, as written: the running size plus the payload
      length must exceed the bound. The 4-byte header is not counted. */
  predicate RollsOver(size: nat, m: Message) {
    size + |m| > MAX_SEGMENT_SIZE
  }

  /** `Log::open`: opens (creating if need be) segment 0 and makes it
      active with the counter at 0. Whatever files the directory already
      holds are left as they are; segment 0 is continued at its end. */
  function Open(disk: Disk, fault: Fault): (r: Started)
    ensures r.log.IoErr? <==> fault == OpenFails
    ensures r.log.IoErr? ==> r.disk == disk
    ensures r.log.Ok? ==> r.disk.Keys == disk.Keys + {0}
    ensures forall i :: Contents(r.disk, i) == Contents(disk, i)
    ensures r.log.Ok? ==>
      && r.log.value.active == Segment(0, |Contents(disk, 0)|)
      && r.log.value.counter == 0
      && Valid(r.disk, r.log.value)
  {
    match New(disk, 0, fault)
    case IoErr => Started(disk, IoErr)
    case Ok(o) => Started(o.disk, Ok(Log(o.segment, 0)))
  }

  /** `Log::append`: when the running size plus the payload length exceeds
      the bound (the header is not counted), takes the next index from the counter, opens that segment and makes it
      active; then appends the frame to the active segment and returns the
      offset at which it starts in that segment's file. Nothing is undone on
      failure: a failed open still consumes an index, and a failed write
      after a rollover leaves the new segment active. */
  function Append(disk: Disk, log: Log, m: Message, fault: Fault): (r: Step<nat>)
    // The counter advances by one exactly when the rollover check fires.
    ensures r.log.counter == if RollsOver(log.active.size, m) then log.counter + 1 else log.counter
    ensures !RollsOver(log.active.size, m) ==> r.log.active.index == log.active.index
    ensures RollsOver(log.active.size, m) && fault != OpenFails ==>
      r.log.active.index == log.counter + 1
    ensures RollsOver(log.active.size, m) && fault == OpenFails ==>
      r == Step(disk, log.(counter := log.counter + 1), IoErr)
    // Files only grow, and only the file of the (new) active segment.
    ensures AppendOnly(disk, r.disk)
    ensures forall i :: i != r.log.active.index ==> Contents(r.disk, i) == Contents(disk, i)
    // The only file that can come into existence is the one a rollover opens.
    ensures r.disk.Keys <= disk.Keys + {r.log.active.index}
    ensures Valid(disk, log) ==>
      r.disk.Keys == if RollsOver(log.active.size, m) && fault != OpenFails
                     then disk.Keys + {log.counter + 1} else disk.Keys
    ensures r.result.Ok? <==>
      WriteSucceeds(fault, m) && !(fault == OpenFails && RollsOver(log.active.size, m))
    // A successful append writes the frame at the end of the active file and
    // returns where it starts.
    ensures r.result.Ok? && Valid(disk, log) ==>
      && r.result.value == |Contents(disk, r.log.active.index)|
      && Contents(r.disk, r.log.active.index) == Contents(disk, r.log.active.index) + EncodeFrame(m)
    ensures Valid(disk, log) && (fault != PayloadWriteFails || m == []) ==> Valid(r.disk, r.log)
    // Without rollover the segment ends at most a header past the bound.
    ensures r.result.Ok? && !RollsOver(log.active.size, m) ==>
      r.log.active.size <= MAX_SEGMENT_SIZE + 4
  {
    if RollsOver(log.active.size, m) then
      var next := log.counter + 1;
      match New(disk, next, fault)
      case IoErr => Step(disk, log.(counter := next), IoErr)
      case Ok(o) =>
        var w := Segments.Append(o.disk, o.segment, m, fault);
        Step(w.disk, Log(w.segment, next), w.offset)
    else
      var w := Segments.Append(disk, log.active, m, fault);
      Step(w.disk, log.(active := w.segment), w.offset)
  }

  /** Without rollover, a successful append returns the running size and
      advances it by the framed length, in every state: even when a stray
      header has left the size behind the file, or the file ends torn. */
  lemma AppendAtRunningSize(disk: Disk, log: Log, m: Message, fault: Fault)
    requires !RollsOver(log.active.size, m)
    requires WriteSucceeds(fault, m)
    ensures var r := Append(disk, log, m, fault);
      && r.result == Ok(log.active.size)
      && r.log == log.(active := log.active.(size := log.active.size + 4 + |m|))
  {
  }

  /** `Log::read_all`: the messages decodable from the active segment, and
      from no other. The log and the directory are left as they were. */
  method ReadAll(disk: Disk, log: Log, fault: Fault) returns (r: Step<seq<Message>>)
    ensures r.disk == disk && r.log == log
    ensures r.result.IoErr? <==> fault == OpenFails || log.active.index !in disk
    ensures r.result.Ok? ==> r.result.value == Decode(disk[log.active.index])
  {
    var messages := Segments.ReadAll(disk, log.active, fault);
    r := Step(disk, log, messages);
  }

  /** State after a run of appends, and the offsets they returned. */
  datatype Run = Run(disk: Disk, log: Log, offsets: seq<nat>)

  /** Consecutive appends of `ms`, in order, with no I/O fault. */
  function AppendAll(disk: Disk, log: Log, ms: seq<Message>): (r: Run)
    ensures |r.offsets| == |ms|
    decreases |ms|
  {
    if ms == [] then Run(disk, log, [])
    else
      var s := Append(disk, log, ms[0], NoFault);
      var rest := AppendAll(s.disk, s.log, ms[1..]);
      Run(rest.disk, rest.log, [s.result.value] + rest.offsets)
  }

  /** Appending `ms` in order, starting from a segment of `size` bytes,
      never triggers a rollover. */
  predicate FitsActive(size: nat, ms: seq<Message>)
    decreases |ms|
  {
    ms == [] || (size + |ms[0]| <= MAX_SEGMENT_SIZE && FitsActive(size + 4 + |ms[0]|, ms[1..]))
  }

  /** One fault-free append that fits the active segment: it returns the
      old size as offset, grows the segment by the framed length, and adds
      exactly its message to what the segment reads back. */
  lemma AppendInPlace(disk: Disk, log: Log, m: Message)
    requires Valid(disk, log)
    requires WellFormed(Contents(disk, log.active.index))
    requires log.active.size + |m| <= MAX_SEGMENT_SIZE
    ensures var s := Append(disk, log, m, NoFault);
      && s.result == Ok(log.active.size)
      && s.log == Log(log.active.(size := log.active.size + 4 + |m|), log.counter)
      && Valid(s.disk, s.log)
      && WellFormed(Contents(s.disk, log.active.index))
      && Decode(Contents(s.disk, log.active.index)) == Decode(Contents(disk, log.active.index)) + [m]
      && (forall i :: i != log.active.index ==> Contents(s.disk, i) == Contents(disk, i))
  {
    AppendThenDecode(disk, log.active, m, NoFault);
  }

  /** A run of fault-free appends that fits the active segment never rolls
      over: the active segment grows by the framed length of the run, the
      counter stays, and no other file changes. */
  lemma {:induction false} AppendAllStaysActive(disk: Disk, log: Log, ms: seq<Message>)
    requires Valid(disk, log)
    requires FitsActive(log.active.size, ms)
    ensures var r := AppendAll(disk, log, ms);
      && r.log == Log(log.active.(size := log.active.size + FramedSize(ms)), log.counter)
      && Valid(r.disk, r.log)
      && (forall i :: i != log.active.index ==> Contents(r.disk, i) == Contents(disk, i))
    decreases |ms|
  {
    if ms != [] {
      var idx := log.active.index;
      var m := ms[0];
      var size1 := log.active.size + 4 + |m|;
      assert FitsActive(size1, ms[1..]);
      var s := Append(disk, log, m, NoFault);
      var next := Log(log.active.(size := size1), log.counter);
      assert s.log == next
          && Valid(s.disk, next)
          && (forall i :: i != idx ==> Contents(s.disk, i) == Contents(disk, i)) by {
        AppendAtRunningSize(disk, log, m, NoFault);
      }
      var rest := AppendAll(s.disk, next, ms[1..]);
      assert AppendAll(disk, log, ms).disk == rest.disk;
      assert AppendAll(disk, log, ms).log == rest.log;
      assert rest.log == Log(next.active.(size := next.active.size + FramedSize(ms[1..])), log.counter)
          && Valid(rest.disk, rest.log)
          && (forall i :: i != idx ==> Contents(rest.disk, i) == Contents(s.disk, i)) by {
        AppendAllStaysActive(s.disk, next, ms[1..]);
      }
      assert FramedSize(ms) == 4 + |m| + FramedSize(ms[1..]);
    }
  }

  /** Round trip through the log: when the active segment's file holds
      whole frames, a run of fault-free appends that fits the segment adds
      exactly its messages, in order, to what `ReadAll` returns, and leaves
      the file holding whole frames. This holds whether or not the running
      size tracks the file. */
  lemma {:induction false} AppendAllRoundTrip(disk: Disk, log: Log, ms: seq<Message>)
    requires WellFormed(Contents(disk, log.active.index))
    requires FitsActive(log.active.size, ms)
    ensures var r := AppendAll(disk, log, ms);
      && r.log.active.index == log.active.index
      && WellFormed(Contents(r.disk, log.active.index))
      && Decode(Contents(r.disk, log.active.index)) == Decode(Contents(disk, log.active.index)) + ms
    decreases |ms|
  {
    if ms != [] {
      var idx := log.active.index;
      var m := ms[0];
      var size1 := log.active.size + 4 + |m|;
      assert FitsActive(size1, ms[1..]);
      var before := Decode(Contents(disk, idx));
      var s := Append(disk, log, m, NoFault);
      var next := Log(log.active.(size := size1), log.counter);
      assert s.log == next
          && WellFormed(Contents(s.disk, idx))
          && Decode(Contents(s.disk, idx)) == before + [m] by {
        AppendAtRunningSize(disk, log, m, NoFault);
        AppendThenDecode(disk, log.active, m, NoFault);
      }
      var rest := AppendAll(s.disk, next, ms[1..]);
      assert AppendAll(disk, log, ms).disk == rest.disk;
      assert AppendAll(disk, log, ms).log == rest.log;
      assert rest.log.active.index == idx
          && WellFormed(Contents(rest.disk, idx))
          && Decode(Contents(rest.disk, idx)) == (before + [m]) + ms[1..] by {
        AppendAllRoundTrip(s.disk, next, ms[1..]);
      }
      SnocThenRest(before, ms);
    }
  }

  /** Offset arithmetic: in a run of fault-free appends that stays in the
      active segment, the k-th append returns the starting size plus the
      framed length of the k appends before it. The offsets come from the
      running size alone, whatever the file holds and whether or not the
      size still tracks it. */
  lemma {:induction false} AppendAllOffsets(disk: Disk, log: Log, ms: seq<Message>)
    requires FitsActive(log.active.size, ms)
    ensures var r := AppendAll(disk, log, ms);
      forall k :: 0 <= k < |ms| ==> r.offsets[k] == log.active.size + FramedSize(ms[..k])
    decreases |ms|
  {
    if ms != [] {
      var m := ms[0];
      var size1 := log.active.size + 4 + |m|;
      assert FitsActive(size1, ms[1..]);
      var s := Append(disk, log, m, NoFault);
      var next := Log(log.active.(size := size1), log.counter);
      assert s.log == next && s.result == Ok(log.active.size) by {
        AppendAtRunningSize(disk, log, m, NoFault);
      }
      var rest := AppendAll(s.disk, next, ms[1..]);
      var offsets := AppendAll(disk, log, ms).offsets;
      assert offsets == [log.active.size] + rest.offsets;
      assert forall j :: 0 <= j < |ms| - 1 ==> rest.offsets[j] == size1 + FramedSize(ms[1..][..j]) by {
        AppendAllOffsets(s.disk, next, ms[1..]);
      }
      forall k | 0 <= k < |ms|
        ensures offsets[k] == log.active.size + FramedSize(ms[..k])
      {
        if k == 0 {
          assert ms[..0] == [];
        } else {
          FramedSizeOfPrefix(ms, k);
          assert offsets[k] == rest.offsets[k - 1];
        }
      }
    }
  }

  /** A message that exactly fills the bound does not roll over, although
      with its header it carries the segment 4 bytes past the bound. */
  lemma ExactFitOverrunsByHeader(disk: Disk, log: Log, m: Message)
    requires Valid(disk, log)
    requires log.active.size + |m| == MAX_SEGMENT_SIZE
    ensures var r := Append(disk, log, m, NoFault);
      && r.log.active.index == log.active.index
      && r.log.active.size == MAX_SEGMENT_SIZE + 4
      && |Contents(r.disk, log.active.index)| == MAX_SEGMENT_SIZE + 4
  {
  }

  /** A rollover continues the next segment's file at its end: the offset
      is that file's existing length (0 only when there is no such file),
      and what the new active segment reads back is its old contents plus
      the message. */
  lemma RolloverContinuesNextFile(disk: Disk, log: Log, m: Message)
    requires log.active.index <= log.counter
    requires RollsOver(log.active.size, m)
    requires WellFormed(Contents(disk, log.counter + 1))
    requires |m| < U32_LIMIT
    ensures var r := Append(disk, log, m, NoFault);
      && r.log.active.index == log.counter + 1 != log.active.index
      && r.result == Ok(|Contents(disk, log.counter + 1)|)
      && Decode(Contents(r.disk, log.counter + 1)) == Decode(Contents(disk, log.counter + 1)) + [m]
      && Contents(r.disk, log.active.index) == Contents(disk, log.active.index)
      && (log.counter + 1 !in disk ==> r.result == Ok(0))
  {
    var next := log.counter + 1;
    var o := New(disk, next, NoFault).value;
    var w := Segments.Append(o.disk, o.segment, m, NoFault);
    var r := Append(disk, log, m, NoFault);
    assert r.disk == w.disk && r.log == Log(w.segment, next) && r.result == w.offset;
    assert o.segment.index == next && Contents(o.disk, next) == Contents(disk, next);
    assert Decode(Contents(w.disk, next)) == Decode(Contents(disk, next)) + [m] by {
      AppendThenDecode(o.disk, o.segment, m, NoFault);
    }
  }

  /** A message longer than the bound rolls over even from an empty
      segment, and is then written whole into the next one. */
  lemma OversizedMessageWrittenWhole(disk: Disk, log: Log, m: Message)
    requires Valid(disk, log)
    requires log.active.size == 0
    requires MAX_SEGMENT_SIZE < |m| < U32_LIMIT
    requires log.counter + 1 !in disk
    ensures var r := Append(disk, log, m, NoFault);
      && r.log.active.index == log.counter + 1
      && r.result == Ok(0)
      && r.log.active.size == 4 + |m|
      && Decode(Contents(r.disk, r.log.active.index)) == [m]
  {
    var r := Append(disk, log, m, NoFault);
    assert Contents(r.disk, r.log.active.index) == Frames([m]) by {
      assert [m][1..] == [];
    }
    DecodeFrames([m]);
  }

  /** Restart: reopening the directory continues segment 0 at its end, so a
      following append neither overwrites nor truncates what was there and
      reads back after it. */
  lemma ReopenThenAppend(disk: Disk, m: Message)
    requires WellFormed(Contents(disk, 0))
    requires |Contents(disk, 0)| + |m| <= MAX_SEGMENT_SIZE
    ensures var o := Open(disk, NoFault);
      var r := Append(o.disk, o.log.value, m, NoFault);
      && r.result == Ok(|Contents(disk, 0)|)
      && Contents(disk, 0) <= Contents(r.disk, 0)
      && Decode(Contents(r.disk, 0)) == Decode(Contents(disk, 0)) + [m]
  {
    var o := Open(disk, NoFault);
    AppendThenDecode(o.disk, o.log.value.active, m, NoFault);
  }

  /** The log keeps appending after a failed payload write, so the bare
      header it left is not necessarily the last thing in the file. Here a
      one-byte message loses its payload, and the next, empty message is
      reported at offset 0 although its frame starts at byte 4; reading the
      segment back then yields a one-byte message that was never appended,
      and not the empty one that was. */
  lemma PayloadFaultThenAppendMisreads()
    ensures var log := Log(Segment(0, 0), 0);
      var r1 := Append(map[0 := []], log, [1], PayloadWriteFails);
      var r2 := Append(r1.disk, r1.log, [], NoFault);
      && r1.result == IoErr
      && r2.result == Ok(0)
      && Contents(r2.disk, 0) == [0, 0, 0, 1, 0, 0, 0, 0]
      && Decode(Contents(r2.disk, 0)) == [[0]]
  {
    var data: seq<byte> := [0, 0, 0, 1, 0, 0, 0, 0];
    assert data[..4] == [0, 0, 0, 1];
    assert data[4..5] == [0];
    assert data[5..] == [0, 0, 0];
    assert Decode(data[5..]) == [];
  }

  /** A segment reopened with a torn tail is continued after it, so the
      torn frame is not the last one either: its header declares more bytes
      than were written, and swallows the next frame. Here a header
      declaring 5 bytes with no payload is followed by the frame of [7]; the
      append reports offset 4, and reading back yields one 5-byte message
      made of that frame's bytes instead of [7]. */
  lemma TornTailSwallowsNextFrame()
    ensures var o := Open(map[0 := [0, 0, 0, 5]], NoFault);
      var r := Append(o.disk, o.log.value, [7], NoFault);
      && r.result == Ok(4)
      && Contents(r.disk, 0) == [0, 0, 0, 5, 0, 0, 0, 1, 7]
      && Decode(Contents(r.disk, 0)) == [[0, 0, 0, 1, 7]]
  {
    var data: seq<byte> := [0, 0, 0, 5, 0, 0, 0, 1, 7];
    assert data[..4] == [0, 0, 0, 5];
    assert data[4..9] == [0, 0, 0, 1, 7];
    assert data[9..] == [];
    assert Decode(data[9..]) == [];
  }

  /** The bytes of an ASCII text. */
  function Ascii(s: string): (r: seq<byte>)
    requires forall i :: 0 <= i < |s| ==> s[i] as int < 256
    ensures |r| == |s|
    ensures forall i :: 0 <= i < |s| ==> r[i] == s[i] as int
  {
    seq(|s|, i requires 0 <= i < |s| => s[i] as int)
  }

  /** A fresh log: appending "a" returns offset 0, appending "bb" returns
      offset 5 (a 4-byte header and one payload byte), and the active
      segment then reads back ["a", "bb"]. */
  lemma FreshLogScenario()
    ensures var o := Open(map[], NoFault);
      var r := AppendAll(o.disk, o.log.value, [Ascii("a"), Ascii("bb")]);
      && r.offsets == [0, 5]
      && Decode(Contents(r.disk, r.log.active.index)) == [Ascii("a"), Ascii("bb")]
  {
    var o := Open(map[], NoFault);
    var ms := [Ascii("a"), Ascii("bb")];
    assert Contents(o.disk, 0) == [];
    assert Decode([]) == [];
    assert WellFormed([]);
    assert FitsActive(0 + 4 + 1, ms[1..]);
    AppendAllRoundTrip(o.disk, o.log.value, ms);
    AppendAllOffsets(o.disk, o.log.value, ms);
    assert ms[..1] == [ms[0]];
    assert FramedSize([ms[0]]) == 5;
  }

  /** Two messages appended to a fresh log read back in order. */
  lemma AppendTwoThenReadBack()
    ensures var o := Open(map[], NoFault);
      var r := AppendAll(o.disk, o.log.value, [Ascii("message-1"), Ascii("message-2")]);
      Decode(Contents(r.disk, r.log.active.index)) == [Ascii("message-1"), Ascii("message-2")]
  {
    var o := Open(map[], NoFault);
    var ms := [Ascii("message-1"), Ascii("message-2")];
    assert Contents(o.disk, 0) == [];
    assert Decode([]) == [];
    assert WellFormed([]);
    assert FitsActive(0 + 4 + 9, ms[1..]);
    AppendAllRoundTrip(o.disk, o.log.value, ms);
  }
}

=== FILE: segment.dfy ===
/**
 One segment of the log: a file in the log directory together with the
 running byte size the process keeps for it. Appends write a frame at the
 end of the file and report where it began; reads decode the file from
 byte 0.
 */
module Segments {
  import opened Bytes
  import opened Frame
  import opened FileSystem
  import opened Seqs

  /** The path of a segment is determined by its index; the open file
      handle is the entry of the same index in the `Disk`. */
  datatype Segment = Segment(index: nat, size: nat)

  /** The in-memory size agrees with the file: the segment's file exists
      and `size` is its length. */
  predicate Tracks(disk: Disk, seg: Segment) {
    seg.index in disk && seg.size == |disk[seg.index]|
  }

  /** The writes of appending `m` go through: the fault names no write, or
      it names the payload write of an empty message, which writes nothing
      and so cannot fail. */
  predicate WriteSucceeds(fault: Fault, m: Message) {
    fault == NoFault || fault == OpenFails || (fault == PayloadWriteFails && m == [])
  }

  /** The directory after opening a segment, and the segment. */
  datatype Opened = Opened(disk: Disk, segment: Segment)

  /** `Segment::new`: opens file `index` in create/append/read mode,
      creating it empty when absent, and takes the running size from the
      file's current length, so an existing file is continued at its end and
      never truncated. */
  function New(disk: Disk, index: nat, fault: Fault): (r: Result<Opened>)
    ensures r.IoErr? <==> fault == OpenFails
    ensures r.Ok? ==> r.value.segment.index == index
    ensures r.Ok? ==> r.value.segment.size == |Contents(disk, index)|
    ensures r.Ok? ==> Tracks(r.value.disk, r.value.segment)
    ensures r.Ok? ==> r.value.disk.Keys == disk.Keys + {index}
    ensures r.Ok? ==> forall i :: Contents(r.value.disk, i) == Contents(disk, i)
  {
    if fault == OpenFails then IoErr
    else
      var d := if index in disk then disk else disk[index := []];
      Ok(Opened(d, Segment(index, |Contents(disk, index)|)))
  }

  /** The directory and segment after an append, and its outcome: the
      offset at which the frame starts, or an I/O error. */
  datatype Written = Written(disk: Disk, segment: Segment, offset: Result<nat>)

  /** `Segment::append`: writes the length header, then the payload, at the
      end of the file (the file is in append mode), then advances the running
      size by the framed length and returns the size from before the write.
      A failed header write changes nothing; a failed payload write leaves
      the header in the file and the running size where it was. */
  function Append(disk: Disk, seg: Segment, m: Message, fault: Fault): (r: Written)
    ensures r.segment.index == seg.index
    ensures AppendOnly(disk, r.disk)
    ensures forall i :: i != seg.index ==> Contents(r.disk, i) == Contents(disk, i)
    ensures r.disk.Keys <= disk.Keys + {seg.index}
    ensures seg.index in disk ==> r.disk.Keys == disk.Keys
    ensures r.offset.Ok? <==> WriteSucceeds(fault, m)
    ensures WriteSucceeds(fault, m) ==>
      && r.offset.value == seg.size
      && r.segment.size == seg.size + 4 + |m|
      && Contents(r.disk, seg.index) == Contents(disk, seg.index) + EncodeFrame(m)
    ensures fault == HeaderWriteFails ==> r.disk == disk && r.segment == seg
    ensures fault == PayloadWriteFails && m != [] ==>
      && r.segment == seg
      && Contents(r.disk, seg.index) == Contents(disk, seg.index) + EncodeFrame(m)[..4]
    ensures Tracks(disk, seg) && WriteSucceeds(fault, m) ==>
      && Tracks(r.disk, r.segment)
      && Contents(r.disk, seg.index)[r.offset.value..] == EncodeFrame(m)
  {
    var file := Contents(disk, seg.index);
    var frame := EncodeFrame(m);
    if fault == HeaderWriteFails then Written(disk, seg, IoErr)
    else if !WriteSucceeds(fault, m) then Written(disk[seg.index := file + frame[..4]], seg, IoErr)
    else Written(disk[seg.index := file + frame], seg.(size := seg.size + 4 + |m|), Ok(seg.size))
  }

  /** An empty message has no payload to write, so a payload fault cannot
      hit it: the append behaves exactly as a fault-free one. */
  lemma EmptyPayloadCannotFail(disk: Disk, seg: Segment)
    ensures Append(disk, seg, [], PayloadWriteFails) == Append(disk, seg, [], NoFault)
    ensures Append(disk, seg, [], PayloadWriteFails).offset == Ok(seg.size)
  {
  }

  /** While the file holds whole frames, a successful append adds exactly
      its message to what the segment reads back, and the file still holds
      whole frames; the running size plays no part in this. */
  lemma AppendThenDecode(disk: Disk, seg: Segment, m: Message, fault: Fault)
    requires WellFormed(Contents(disk, seg.index))
    requires |m| < U32_LIMIT
    requires WriteSucceeds(fault, m)
    ensures var r := Append(disk, seg, m, fault);
      && Decode(Contents(r.disk, seg.index)) == Decode(Contents(disk, seg.index)) + [m]
      && WellFormed(Contents(r.disk, seg.index))
  {
    DecodeAfterAppend(Contents(disk, seg.index), m);
  }

  /** A failed payload write leaves a bare header behind: what the segment
      reads back is unchanged, but the file is now four bytes longer than the
      running size, so the size no longer tracks the file. */
  lemma PayloadFaultLeavesBareHeader(disk: Disk, seg: Segment, m: Message)
    requires Tracks(disk, seg)
    requires WellFormed(Contents(disk, seg.index))
    requires 0 < |m| < U32_LIMIT
    ensures var r := Append(disk, seg, m, PayloadWriteFails);
      && Decode(Contents(r.disk, seg.index)) == Decode(Contents(disk, seg.index))
      && |Contents(r.disk, seg.index)| == r.segment.size + 4
      && !Tracks(r.disk, r.segment)
  {
    DecodeIgnoresBareHeader(Contents(disk, seg.index), m);
  }

  /** `Segment::read_all`: opens an independent read handle and scans frames
      from byte 0, stopping without error at the first short header or
      short payload. Only the open itself can fail: by a fault, or because
      the file does not exist. */
  method ReadAll(disk: Disk, seg: Segment, fault: Fault) returns (r: Result<seq<Message>>)
    ensures r.IoErr? <==> fault == OpenFails || seg.index !in disk
    ensures r.Ok? ==> r.value == Decode(disk[seg.index])
  {
    if fault == OpenFails || seg.index !in disk {
      return IoErr;
    }
    var data := disk[seg.index];
    var messages: seq<Message> := [];
    var pos: nat := 0;
    while true
      invariant pos <= |data|
      invariant messages + Decode(data[pos..]) == Decode(data)
      decreases |data| - pos
    {
      DecodeFrom(data, pos);
      if |data| - pos < 4 {
        break;
      }
      var len := FromBe32(data[pos..pos + 4]);
      if |data| - pos - 4 < len {
        break;
      }
      var msg := data[pos + 4..pos + 4 + len];
      var next := pos + 4 + len;
      ghost var rest := Decode(data[next..]);
      assert Decode(data[pos..]) == [msg] + rest;
      SnocAssoc(messages, msg, rest);
      messages := messages + [msg];
      pos := next;
    }
    return Ok(messages);
  }
}

=== FILE: seqs.dfy ===
/**
 Generic facts about sequence concatenation. Stated once over any element
 type, they keep the proofs about sequences of messages from reasoning
 about the bytes inside each message.
 */
module Seqs {

  lemma SnocAssoc<T>(a: seq<T>, x: T, b: seq<T>)
    ensures (a + [x]) + b == a + ([x] + b)
  {
  }

  lemma ConsThenRest<T>(xs: seq<T>, d: seq<T>)
    requires xs != []
    ensures [xs[0]] + (xs[1..] + d) == xs + d
  {
    assert xs == [xs[0]] + xs[1..];
  }

  lemma SnocThenRest<T>(a: seq<T>, xs: seq<T>)
    requires xs != []
    ensures (a + [xs[0]]) + xs[1..] == a + xs
  {
    assert xs == [xs[0]] + xs[1..];
  }
}
